=== FILE: README.md ===
# Snappass secret lifecycle in Dafny

Snappass shares a password through a single-use link. A sender submits a
secret and a lifetime (TTL). The application checks the submission and stores
the secret in Redis under a random key with that expiry. It then returns the
key as a link. The first visit to the link reads the secret and deletes it
("burn after read"). Later visits, and visits after the TTL has elapsed, get
404.

This project models that lifecycle from `snappass/main.py` and proves
properties of it. The model is sequential and purely functional. The store is
an immutable value that every operation takes and returns, with an explicit
clock.

- `Wrappers` (`wrappers.dfy`): `Option` and `Result`.
- `Digits` (`digits.dfy`): the TTL check. `IsDigits` is ASCII `str.isdigit`,
  `Value` and `ParseInt` are `int`, and `Show` is a decimal rendering that
  serves as the inverse of `Value`.
- `Keys` (`keys.dfy`): the key format `key_regexp`, both as intended
  (`KeyFormat`) and as written (`KeyRegexpMatch`), plus the store namespace
  `redis_safe_key` (`SafeKey`).
- `Redis` (`redis.dfy`): the backend, reduced to the four commands the
  application uses (`SET`, `EXPIRE`, `GET`, `DEL`). `ParseInteger` is how the
  server reads the text of an integer argument. `Tick` models time passing and
  evicts expired entries.
- `Snappass` (`snappass.dfy`):
  - the operations `set_password`, `get_password`, `clean_input`, and the
    decisions of `handle_password` and `show_password`;
  - HTTP outcomes as values: `Created(key)`, `Reveal(password)` and
    `Abort(status)`.
- `Lifecycle` (`lifecycle.dfy`): sequences of submissions, retrievals and
  waits, each served exactly as the code serves it (`HandlePasswordAsWritten`
  and `ShowPasswordAsWritten`). It proves properties that hold for every such
  history.

`id_` (a uuid4 in hex) is not computed. Its result is passed in as a
parameter, and `FreshId` assumes its postcondition: 32 lowercase hex
characters, naming no secret already in the store. Where a property spans a
history of requests, `NeverReissued` also assumes that no later submission
receives the same key again.

Points where the code's behaviour is easy to misread:
- The code accepts an empty secret. `clean_input` checks only presence and
  length. Such a secret is stored, and its link always answers 404, because
  `not password` holds for an empty value (`Snappass.EmptySecretNeverShown`).
- Retrieval is a `GET` followed by a separate `DEL`, not an atomic
  get-and-delete. The model runs them back to back, so its at-most-once
  property holds only for sequential histories.
- The expiry is a separate `EXPIRE` after the `SET`. It is applied once, when
  the secret is written, and never again.
- The TTL reaches `EXPIRE` as the text the sender typed. `clean_input` reads
  it with `int`, but current Redis servers read integer arguments with their
  own, stricter parser (`string2ll`), which refuses a leading zero.

## Model

| member | source | states |
|---|---|---|
| Digits.ParseInt | snappass/main.py:59 | `int(time_period)`: reading the digit string left to right gives the same number as its positional base-ten value |
| Digits.ValueOfShow | snappass/main.py:56-59 | any number written in decimal passes the digit check and is read back as that number |
| Digits.ShowOfValue | snappass/main.py:56-59 | rendering the value of a digit string without a leading zero gives back that string |
| Digits.LeadingZeroIgnored | snappass/main.py:59 | a leading zero does not change the TTL that `int` reads, so `clean_input`'s range check treats `"060"` as 60 |
| Keys.KeyRegexpMatchCases | snappass/main.py:18 | the pattern as written accepts exactly the 32-character lowercase hex strings, plus those strings followed by one newline |
| Keys.KeyRegexpAcceptsTrailingNewline | snappass/main.py:18 | some string passes the pattern as written without being a 32-character key |
| Keys.KeyFormatMatchesRegexp | snappass/main.py:18 | every well-formed key passes the pattern as written |
| Keys.SafeKey | snappass/main.py:19 | the store name starts with `snappass:`, and removing the prefix gives back the key |
| Keys.SafeKeyInjective | snappass/main.py:19 | two keys share a store name exactly when they are equal |
| Keys.IssuedNameOfKey | snappass/main.py:17-19 | a key's store name has the issued shape (prefix plus 32 hex) exactly when the key is well formed |
| Redis.Set | snappass/main.py:28 | `SET` makes the value readable with no expiry; every other name keeps its entry |
| Redis.ParseIntegerOfShow | snappass/main.py:29 | the server reads the decimal rendering of every integer up to 2^63 - 1 as that integer |
| Redis.ParseIntegerOfDigits | snappass/main.py:29 | the server reads a digit string exactly when it has no leading zero (or is `0`), and then reads it as its positional value |
| Redis.ExpireSeconds | snappass/main.py:29 | `EXPIRE` with a positive timeout fixes the entry's deadline at now + timeout; a non-positive timeout deletes the entry; other names are untouched |
| Redis.Expire | snappass/main.py:29 | `EXPIRE` with timeout text the server cannot read answers an error; otherwise, on a present name, a positive timeout sets the deadline to now + timeout and a non-positive one deletes the entry; an absent name is left alone; no other name is added, removed or changed |
| Redis.Get | snappass/main.py:34 | `GET` answers the value exactly when the entry exists and has not expired |
| Redis.Delete | snappass/main.py:35 | `DEL` removes that one name and leaves every other entry as it was |
| Redis.Tick | snappass/main.py:29 | after time passes, the store keeps exactly the entries still live at the new time, unchanged |
| Snappass.CleanInput | snappass/main.py:39-63 | accepts exactly when the password is present and has at most 1048576 characters, and the TTL is present, all digits, at most 4300 digits long (the most `int` converts) and in [1, 604800]; on success returns the TTL text and password unchanged; a missing password is the first reason given; a TTL that passes the earlier checks but is too long to convert is refused for that reason alone |
| Snappass.RejectionStatus | snappass/main.py:44-61 | a refusal ends in 500 exactly when `int` raised on a TTL too long to convert, and in 400 for every other reason |
| Snappass.EveryTtlInRangeAccepted | snappass/main.py:55-63 | every TTL from 1 to 604800, written in decimal, is accepted together with any password that fits |
| Snappass.SetPassword | snappass/main.py:26-30 | returns the key exactly when the server reads the TTL text; the secret is then stored with deadline now + TTL; when the server refuses the TTL, the secret stays stored with no expiry; every existing entry is kept unchanged |
| Snappass.GetPassword | snappass/main.py:33-36 | answers the secret exactly when it is stored and live; afterwards that one store name is gone and all other entries are unchanged |
| Snappass.RoundTrip | snappass/main.py:26-36 | a secret stored with a TTL text the server reads as t >= 1 is read back unchanged at any time up to t seconds later |
| Snappass.BurnAfterRead | snappass/main.py:33-36 | after a read the store name is absent, so a second read answers nothing |
| Snappass.HandlePasswordAsWritten | snappass/main.py:71-74 | a refused submission leaves the store unchanged and answers 500 when the TTL is too long for `int`, 400 otherwise; an accepted one adds one entry; with a TTL written without a leading zero it answers with the key and the deadline is now + TTL; with a zero-padded TTL it answers 500 and the entry has no expiry |
| Snappass.ZeroPaddedTtlNeverExpires | snappass/main.py:59 | the TTL `"060"` passes `clean_input`, yet the request fails and the stored secret survives any amount of time |
| Snappass.HandlePassword | snappass/main.py:71-74 | with the checked TTL passed as an integer: a refused submission answers 400 (500 for a TTL too long for `int`) with the store unchanged; an accepted one adds exactly one entry (the password with deadline now + TTL) and answers with its key |
| Snappass.AsWrittenAgreesOnCanonicalTtl | snappass/main.py:73-74 | when the TTL has no leading zero, the code as written and the corrected version give the same answer and the same store |
| Snappass.ShowPassword | snappass/main.py:84-92 | a malformed key answers 400 without touching the store; a well-formed key burns its entry and answers 404 exactly when the secret is absent, expired or empty; otherwise it reveals the stored secret |
| Snappass.ShowPasswordAsWritten | snappass/main.py:84-92 | the same decision with the pattern as written: a string the pattern refuses answers 400 without touching the store; an accepted one burns its entry and answers 404 exactly when the secret is absent, expired or empty; otherwise it reveals the stored secret |
| Snappass.TrailingNewlineProbeReachesStore | snappass/main.py:86-90 | a well-formed key plus a newline is refused with 400 by the full-match check; the pattern as written lets it reach the store, where it answers 404 |
| Snappass.AsWrittenAgreesOnKeys | snappass/main.py:86-87 | outside the trailing-newline case, the corrected check and the pattern as written give the same outcome |
| Snappass.IssuedKeyPassesCheck | snappass/main.py:17-18 | every key the code hands out in a link passes the retrieval key check as written |
| Snappass.SubmitThenShowTwice | snappass/main.py:71-92 | with the code as written, a non-empty accepted secret whose TTL has no leading zero gets a link, is revealed on the first visit within its TTL, and a second visit answers 404 |
| Snappass.EmptySecretNeverShown | snappass/main.py:84-90 | with the code as written, an empty secret is accepted and stored, but its first visit answers 404 and still deletes it |
| Snappass.CorrectHorseExample | snappass/main.py:71-92 | with the code as written, `correct horse battery staple` with TTL `60` gets a link, is revealed once at 60 seconds, and the next visit answers 404 |
| Lifecycle.Step | snappass/main.py:71-92 | serving one request (a submission or a retrieval as the code makes it, or a wait) never moves the clock backwards, and it keeps expired entries evicted |
| Lifecycle.RunMonotone | snappass/main.py:28-29 | over any history the clock never decreases, and no expired entry survives |
| Lifecycle.StepKeepsEntry | snappass/main.py:26-36 | a single request leaves an existing entry either unchanged or removed; it never rewrites it |
| Lifecycle.DeadlineNeverExtended | snappass/main.py:28-29 | over any history an entry keeps its secret and deadline for as long as it exists |
| Lifecycle.StaysAbsentWhenNotReissued | snappass/main.py:33-36 | a removed store name stays absent while no submission receives that key again |
| Lifecycle.SecretExpires | snappass/main.py:28-29 | a secret submitted at time t with a TTL d written without a leading zero is absent, and its link answers 404, once the clock passes t + d, whatever happened in between |
| Lifecycle.ShownAtMostOnce | snappass/main.py:33-36 | in a sequential history, once a secret has been revealed, every later visit to its key answers 404 |
| Lifecycle.RunKeepsIssuedNames | snappass/main.py:17-19 | the store only ever holds names of the form `snappass:` plus 32 lowercase hex characters |

## Left out

- Flask routing, template rendering, `request`/`abort` mechanics and logging (snappass/main.py:7, 45, 57, 66-68, 81, 92). These are HTTP and presentation plumbing; outcomes appear as `Response` values and refusals as `Rejection` reasons.
- The Redis client, connection settings and environment configuration (snappass/main.py:11-15, 20-23). These are I/O; the backend is the abstract `Redis.Backend` value.
- The randomness of `uuid.uuid4` (snappass/main.py:17). This is a foreign call; only its output format and freshness are assumed (`FreshId`, `NeverReissued`).
- The HTTPS rewriting of the link (snappass/main.py:76-80). It is presentation logic; `HandlePassword` answers with the key alone.
- Concurrency. The separate `GET` and `DEL`, and the separate `SET` and `EXPIRE`, run back to back here. No property is claimed for interleaved requests.
- Lifecycle.ShownAtMostOnce: proved only for sequential histories in which the key is not issued again. Under concurrent retrieval the non-atomic get-then-delete can reveal a secret twice.
- Lifecycle.SecretExpires: assumes the key is not issued again after the secret is gone, because a repeated uuid4 would store a new secret under the same name.
- Snappass.CleanInput: follows interpreters that limit `int` to 4300 digits (Python 3.11 and later, and the security releases of 3.7 to 3.10). Older interpreters convert any length, so there a too-long TTL would be refused with 400 or, zero-padded to an in-range value, accepted.
- Unicode digits. Python's `str.isdigit` also accepts non-ASCII digits; the model accepts ASCII `0`-`9` only.
- Bytes and strings. Redis returns bytes; the model treats stored values and passwords as character strings and counts the length in characters, as `len` does on the form field.
- Lifecycle.SecretExpires: proved only for a TTL written without a leading zero. With a zero-padded TTL the code leaves the secret with no expiry at all (`Snappass.ZeroPaddedTtlNeverExpires`); the corrected `Snappass.HandlePassword` sets the deadline for every accepted TTL.
- Snappass.HandlePasswordAsWritten: `EXPIRE`'s own check that now + timeout fits in milliseconds is not modelled, because every TTL that `clean_input` accepts is far below that bound.
- Sub-second time. The clock counts whole seconds, and an entry is readable up to and including its deadline second.

## Findings

| source | as written | input that shows it | evidently intended | confidence | as-written member | corrected member |
|---|---|---|---|---|---|---|
| snappass/main.py:18 | `key_regexp.match` with `^[0-9a-f]{32}$`: in Python, `$` also matches just before a final newline, so 32 hex characters followed by `"\n"` pass the format check and reach the store as a `GET` and a `DEL` on a name no secret can have | `"0123456789abcdef0123456789abcdef\n"` (a URL path ending in `%0A`) | only exactly 32 lowercase hex characters pass, so malformed keys are refused with 400 before any store access | low; not executed (the answer is still 404, and whether the web layer forwards such a path was not checked) | Snappass.ShowPasswordAsWritten | Snappass.ShowPassword |
| snappass/main.py:73-74 | the TTL text from `clean_input` goes to `EXPIRE` unchanged; `int` is used only for the range check at line 59. Current Redis servers read integer arguments with `string2ll`, which refuses a leading zero, so after the `SET` at line 28 the `EXPIRE` fails, the request ends in 500, and the secret is kept with no expiry | form `{"password": "x", "ttl": "060"}` | the checked TTL sets a deadline of now + 60 seconds, as `int` read it | medium; not executed (holds for servers that parse integers with `string2ll`; older servers that used `strtoll` read `"060"` as 60) | Snappass.HandlePasswordAsWritten | Snappass.HandlePassword |

=== FILE: digits.dfy ===
/**
  Decimal digit strings, as the TTL field of the submission form is checked
  (`str.isdigit`, restricted here to ASCII) and read (`int`).
 */
module Digits {

  predicate IsDigit(c: char) {
    '0' <= c <= '9'
  }

  /** Every character is an ASCII decimal digit (the empty string qualifies). */
  predicate AllDigits(s: string) {
    forall i :: 0 <= i < |s| ==> IsDigit(s[i])
  }

  /** `str.isdigit()`: false on the empty string, otherwise every character is a digit. */
  predicate IsDigits(s: string) {
    |s| > 0 && AllDigits(s)
  }

  function DigitValue(c: char): (d: nat)
    requires IsDigit(c)
    ensures d < 10
  {
    c as int - '0' as int
  }

  function DigitChar(d: nat): (c: char)
    requires d < 10
    ensures IsDigit(c) && DigitValue(c) == d
  {
    ('0' as int + d) as char
  }

  /** The number a digit string denotes in base ten, read positionally; leading zeros are allowed. */
  function Value(s: string): nat
    requires AllDigits(s)
  {
    if |s| == 0 then 0 else 10 * Value(s[..|s| - 1]) + DigitValue(s[|s| - 1])
  }

  /** The shortest decimal rendering of `n`. */
  function Show(n: nat): (s: string)
    ensures IsDigits(s)
    ensures |s| == 1 || s[0] != '0'
  {
    if n < 10 then [DigitChar(n)] else Show(n / 10) + [DigitChar(n % 10)]
  }

  /** Reading back the rendering of a number gives the number. */
  lemma {:induction false} ValueOfShow(n: nat)
    ensures Value(Show(n)) == n
  {
    if n >= 10 {
      var s := Show(n);
      assert s[..|s| - 1] == Show(n / 10);
      ValueOfShow(n / 10);
    }
  }

  /** A digit string without a leading zero, as the shortest rendering of a positive number is written. */
  predicate CanonicalDigits(s: string) {
    IsDigits(s) && s[0] != '0'
  }

  /** A digit string without a leading zero denotes a positive number. */
  lemma {:induction false} CanonicalPositive(s: string)
    requires CanonicalDigits(s)
    ensures Value(s) >= 1
    decreases |s|
  {
    if |s| > 1 {
      CanonicalPositive(s[..|s| - 1]);
    }
  }

  /** Rendering the value of a digit string without a leading zero gives back that string. */
  lemma {:induction false} ShowOfValue(s: string)
    requires CanonicalDigits(s)
    ensures Show(Value(s)) == s
    decreases |s|
  {
    if |s| > 1 {
      var p := s[..|s| - 1];
      CanonicalPositive(p);
      ShowOfValue(p);
      assert s == p + [s[|s| - 1]];
    }
  }

  function Pow10(k: nat): (p: nat)
    ensures p >= 1
  {
    if k == 0 then 1 else 10 * Pow10(k - 1)
  }

  /** A number below 10^k is rendered with at most k digits. */
  lemma {:induction false} ShowLength(n: nat, k: nat)
    requires 1 <= k && n < Pow10(k)
    ensures |Show(n)| <= k
    decreases k
  {
    if n >= 10 {
      ShowLength(n / 10, k - 1);
    }
  }

  /** A leading zero does not change the value read (`int("060") == 60`). */
  lemma {:induction false} LeadingZeroIgnored(s: string)
    requires AllDigits(s)
    ensures AllDigits("0" + s) && Value("0" + s) == Value(s)
  {
    if |s| > 0 {
      var t := "0" + s;
      assert t[..|t| - 1] == "0" + s[..|s| - 1];
      LeadingZeroIgnored(s[..|s| - 1]);
    }
  }

  /**
    `int(s)` on a digit string, as an executable reading: the digits are read
    left to right, multiplying the running value by ten at each step. The
    rest of the model reads a TTL through `Value`, which this method is proved
    to agree with.
   */
  method ParseInt(s: string) returns (n: nat)
    requires IsDigits(s)
    ensures n == Value(s)
  {
    n := 0;
    var i := 0;
    while i < |s|
      invariant 0 <= i <= |s|
      invariant n == Value(s[..i])
    {
      assert s[..i + 1][..i] == s[..i];
      n := 10 * n + DigitValue(s[i]);
      i := i + 1;
    }
    assert s[..|s|] == s;
  }
}

=== FILE: keys.dfy ===
/**
  Secret keys: the format a retrieval key must have, and the namespaced name
  under which a secret is kept in the store.
 */
module Keys {

  /** A uuid4 rendered by `.hex` has 32 characters. */
  const KeyLength := 32

  /** Every store key written by the application starts with this prefix. */
  const KeyPrefix := "snappass:"

  predicate IsLowerHex(c: char) {
    '0' <= c <= '9' || 'a' <= c <= 'f'
  }

  /** Exactly 32 lowercase hexadecimal characters: the intended meaning of `^[0-9a-f]{32}$`. */
  predicate KeyFormat(s: string) {
    |s| == KeyLength && forall i :: 0 <= i < |s| ==> IsLowerHex(s[i])
  }

  /**
    What Python's `$` accepts after the last matched character: the end of the
    string, or a single newline that ends the string.
   */
  predicate EndAnchor(rest: string) {
    rest == "" || rest == "\n"
  }

  /** `key_regexp.match(s)` as the pattern is written: `^`, 32 hex characters, then `$`. */
  predicate KeyRegexpMatch(s: string) {
    |s| >= KeyLength && KeyFormat(s[..KeyLength]) && EndAnchor(s[KeyLength..])
  }

  /** The pattern as written accepts exactly the well-formed keys and those keys followed by one newline. */
  lemma KeyRegexpMatchCases(s: string)
    ensures KeyRegexpMatch(s) <==> KeyFormat(s) || (|s| == KeyLength + 1 && KeyFormat(s[..KeyLength]) && s[KeyLength] == '\n')
  {
  }

  /** A string the pattern as written lets through although it is not a 32-character key. */
  lemma KeyRegexpAcceptsTrailingNewline()
    ensures exists s :: KeyRegexpMatch(s) && !KeyFormat(s)
  {
    var key := "0123456789abcdef0123456789abcdef";
    var probe := key + "\n";
    assert probe[..KeyLength] == key;
    assert probe[KeyLength..] == "\n";
    assert KeyRegexpMatch(probe) && |probe| == 33;
  }

  /** Every well-formed key also passes the pattern as written. */
  lemma KeyFormatMatchesRegexp(s: string)
    requires KeyFormat(s)
    ensures KeyRegexpMatch(s)
  {
  }

  /** `redis_safe_key`: the store key under which the secret for `key` is kept. */
  function SafeKey(key: string): (r: string)
    ensures |r| == |KeyPrefix| + |key|
    ensures r[..|KeyPrefix|] == KeyPrefix
    ensures r[|KeyPrefix|..] == key
  {
    KeyPrefix + key
  }

  /** Distinct keys never share a store key. */
  lemma SafeKeyInjective(a: string, b: string)
    ensures SafeKey(a) == SafeKey(b) <==> a == b
  {
  }

  /** A store key that `SafeKey` produces from a well-formed key. */
  predicate IsIssuedName(name: string) {
    |name| == |KeyPrefix| + KeyLength && name[..|KeyPrefix|] == KeyPrefix && KeyFormat(name[|KeyPrefix|..])
  }

  /** The store names of well-formed keys are exactly the issued names. */
  lemma IssuedNameOfKey(key: string)
    ensures IsIssuedName(SafeKey(key)) <==> KeyFormat(key)
  {
  }
}

=== FILE: lifecycle.dfy ===
/**
  Sequences of requests against one store: submissions, retrievals and the
  passage of time, one after another. The properties here are about every
  such sequence: deadlines are never moved, expired secrets are gone, and a
  burned secret stays burned. Requests are served exactly as the application
  serves them: submissions go through `HandlePasswordAsWritten` and
  retrievals through `ShowPasswordAsWritten`.
 */
module Lifecycle {
  import opened Digits
  import opened Keys
  import opened Redis
  import opened Snappass

  /** `id` stands for the value `id_` would produce if the submission is accepted. */
  datatype Request = Submit(form: Form, id: string) | Retrieve(key: string) | Wait(seconds: nat)

  /** The one assumption about the environment: an accepted submission gets a fresh key. */
  predicate StepAdmissible(b: Backend, req: Request) {
    req.Submit? && AcceptableForm(req.form) ==> FreshId(b, req.id)
  }

  function Step(b: Backend, req: Request): (r: Backend)
    requires StepAdmissible(b, req)
    ensures r.clock >= b.clock
    ensures Evicted(b) ==> Evicted(r)
  {
    match req
    case Submit(form, id) => HandlePasswordAsWritten(b, form, id).1
    case Retrieve(key) => ShowPasswordAsWritten(b, key).1
    case Wait(seconds) => Tick(b, seconds)
  }

  /** Every submission in the sequence meets the fresh-key assumption at the moment it is made. */
  predicate Admissible(b: Backend, reqs: seq<Request>)
    decreases |reqs|
  {
    |reqs| == 0 || (StepAdmissible(b, reqs[0]) && Admissible(Step(b, reqs[0]), reqs[1..]))
  }

  /** The store after serving the requests in order. */
  function Run(b: Backend, reqs: seq<Request>): Backend
    requires Admissible(b, reqs)
    decreases |reqs|
  {
    if |reqs| == 0 then b else Run(Step(b, reqs[0]), reqs[1..])
  }

  /** Time only moves forward, and eviction keeps up with it. */
  lemma {:induction false} RunMonotone(b: Backend, reqs: seq<Request>)
    requires Admissible(b, reqs)
    ensures Run(b, reqs).clock >= b.clock
    ensures Evicted(b) ==> Evicted(Run(b, reqs))
    decreases |reqs|
  {
    if |reqs| > 0 {
      RunMonotone(Step(b, reqs[0]), reqs[1..]);
    }
  }

  /** A single request never changes an existing entry: it either leaves it as it is or removes it. */
  lemma StepKeepsEntry(b: Backend, req: Request, name: string)
    requires StepAdmissible(b, req)
    requires name in b.data
    ensures var r := Step(b, req);
            name in r.data ==> r.data[name] == b.data[name]
  {
  }

  /** No request in the sequence submits under the store name `name`: uuid4 keys do not repeat. */
  predicate NeverReissued(reqs: seq<Request>, name: string) {
    forall i :: 0 <= i < |reqs| && reqs[i].Submit? ==> SafeKey(reqs[i].id) != name
  }

  lemma NeverReissuedTail(reqs: seq<Request>, name: string)
    requires |reqs| > 0 && NeverReissued(reqs, name)
    ensures NeverReissued(reqs[1..], name)
    ensures reqs[0].Submit? ==> SafeKey(reqs[0].id) != name
  {
  }

  /**
    Entries are immutable once written: whatever requests follow, an entry is
    either still there with the same secret and the same deadline, or gone.
   */
  lemma {:induction false} DeadlineNeverExtended(b: Backend, reqs: seq<Request>, name: string)
    requires Admissible(b, reqs)
    requires name in b.data
    requires NeverReissued(reqs, name)
    ensures var r := Run(b, reqs);
            name in r.data ==> r.data[name] == b.data[name]
    decreases |reqs|
  {
    if |reqs| > 0 {
      var next := Step(b, reqs[0]);
      NeverReissuedTail(reqs, name);
      StepKeepsEntry(b, reqs[0], name);
      if name in next.data {
        DeadlineNeverExtended(next, reqs[1..], name);
      } else {
        StaysAbsentWhenNotReissued(next, reqs[1..], name);
      }
    }
  }

  /** An absent name stays absent unless some later submission writes it. */
  lemma {:induction false} StaysAbsentWhenNotReissued(b: Backend, reqs: seq<Request>, name: string)
    requires Admissible(b, reqs)
    requires name !in b.data
    requires NeverReissued(reqs, name)
    ensures name !in Run(b, reqs).data
    decreases |reqs|
  {
    if |reqs| > 0 {
      NeverReissuedTail(reqs, name);
      StaysAbsentWhenNotReissued(Step(b, reqs[0]), reqs[1..], name);
    }
  }

  /**
    A secret submitted with lifetime `ttl` at time `t` is no longer in the
    store once the clock has passed `t + ttl`, whatever happened in between,
    provided the TTL is written without a leading zero (for a zero-padded TTL
    see `ZeroPaddedTtlNeverExpires`).
   */
  lemma SecretExpires(b: Backend, form: Form, id: string, reqs: seq<Request>)
    requires Evicted(b)
    requires AcceptableForm(form) && FreshId(b, id)
    requires Show(Value(form["ttl"])) == form["ttl"]
    requires Admissible(HandlePasswordAsWritten(b, form, id).1, reqs)
    requires NeverReissued(reqs, SafeKey(id))
    requires Run(HandlePasswordAsWritten(b, form, id).1, reqs).clock > b.clock + Value(form["ttl"])
    ensures var r := Run(HandlePasswordAsWritten(b, form, id).1, reqs);
            SafeKey(id) !in r.data && ShowPasswordAsWritten(r, id).0 == Abort(404)
  {
    var stored := HandlePasswordAsWritten(b, form, id).1;
    RunMonotone(stored, reqs);
    DeadlineNeverExtended(stored, reqs, SafeKey(id));
  }

  /**
    At most one successful retrieval in a sequential history: once a secret
    has been shown, every later retrieval of the same key answers 404, as
    long as no later submission is given the same key.
   */
  lemma ShownAtMostOnce(b: Backend, key: string, reqs: seq<Request>)
    requires ShowPasswordAsWritten(b, key).0.Reveal?
    requires Admissible(ShowPasswordAsWritten(b, key).1, reqs)
    requires NeverReissued(reqs, SafeKey(key))
    ensures ShowPasswordAsWritten(Run(ShowPasswordAsWritten(b, key).1, reqs), key).0 == Abort(404)
  {
    StaysAbsentWhenNotReissued(ShowPasswordAsWritten(b, key).1, reqs, SafeKey(key));
  }

  /** Every request keeps the store free of names the application would not write. */
  lemma {:induction false} RunKeepsIssuedNames(b: Backend, reqs: seq<Request>)
    requires Admissible(b, reqs)
    requires OnlyIssuedNames(b)
    ensures OnlyIssuedNames(Run(b, reqs))
    decreases |reqs|
  {
    if |reqs| > 0 {
      var next := Step(b, reqs[0]);
      if reqs[0].Submit? && AcceptableForm(reqs[0].form) {
        IssuedNameOfKey(reqs[0].id);
      }
      RunKeepsIssuedNames(next, reqs[1..]);
    }
  }
}

=== FILE: redis.dfy ===
/**
  The key/value backend the application talks to, reduced to what it uses:
  `SET`, `EXPIRE`, `GET` and `DEL` on string keys, plus the passage of time,
  which evicts entries whose deadline has gone by. The clock is explicit and
  counts whole seconds.
 */
module Redis {
  import opened Wrappers
  import opened Digits

  /** The largest signed 64-bit integer, the range of an integer argument. */
  const LongMax := 9223372036854775807

  /** The error reply to a command whose argument is not an integer. */
  datatype RedisError = NotAnInteger

  /** A stored value and, once `EXPIRE` has been applied, the last second at which it is still readable. */
  datatype Entry = Entry(value: string, deadline: Option<int>)

  datatype Backend = Backend(data: map<string, Entry>, clock: int)

  /** An entry is readable at `now` unless its deadline has passed. */
  predicate Live(e: Entry, now: int) {
    e.deadline.None? || now <= e.deadline.value
  }

  /** The store holds `name` and its entry has not expired. */
  predicate Readable(b: Backend, name: string) {
    name in b.data && Live(b.data[name], b.clock)
  }

  /** Eviction has caught up with the clock: no expired entry is still held. */
  predicate Evicted(b: Backend) {
    forall name :: name in b.data ==> Live(b.data[name], b.clock)
  }

  /** `SET name value`: stores the value with no expiry, replacing any previous entry. */
  function Set(b: Backend, name: string, value: string): (r: Backend)
    ensures r.clock == b.clock
    ensures Readable(r, name) && r.data[name] == Entry(value, None)
    ensures r.data.Keys == b.data.Keys + {name}
    ensures forall n :: n in b.data && n != name ==> r.data[n] == b.data[n]
    ensures Evicted(b) ==> Evicted(r)
  {
    b.(data := b.data[name := Entry(value, None)])
  }

  /**
    How the server reads an integer argument: `0`, or digits without a
    leading zero, optionally after a minus sign, within the signed 64-bit
    range. Any other text is refused.
   */
  function ParseInteger(s: string): (r: Option<int>)
    ensures r.Some? ==> -LongMax - 1 <= r.value <= LongMax
  {
    if s == "0" then Some(0)
    else if |s| > 1 && s[0] == '-' && CanonicalDigits(s[1..]) && Value(s[1..]) <= LongMax + 1 then Some(-(Value(s[1..]) as int))
    else if CanonicalDigits(s) && Value(s) <= LongMax then Some(Value(s))
    else None
  }

  /** The decimal rendering of every integer in range is read back as that integer. */
  lemma ParseIntegerOfShow(n: nat)
    requires n <= LongMax
    ensures ParseInteger(Show(n)) == Some(n)
  {
    ValueOfShow(n);
  }

  /** A digit string is read exactly when it is the shortest rendering of its value. */
  lemma ParseIntegerOfDigits(s: string)
    requires IsDigits(s) && Value(s) <= LongMax
    ensures ParseInteger(s).Some? <==> Show(Value(s)) == s
    ensures ParseInteger(s).Some? ==> ParseInteger(s).value == Value(s)
  {
    if s[0] != '0' {
      ShowOfValue(s);
    } else if Show(Value(s)) == s {
      assert s == "0";
    }
  }

  /**
    `EXPIRE name seconds` once the timeout has been read: an absent name is
    left alone; a non-positive timeout deletes the entry; otherwise the entry
    becomes readable up to `seconds` from now.
   */
  function ExpireSeconds(b: Backend, name: string, seconds: int): (r: Backend)
    ensures r.clock == b.clock
    ensures name in b.data && seconds > 0 ==>
      name in r.data && r.data[name] == b.data[name].(deadline := Some(b.clock + seconds))
    ensures name in b.data && seconds <= 0 ==> name !in r.data
    ensures name !in b.data ==> r == b
    ensures forall n :: n != name ==> (n in r.data <==> n in b.data)
    ensures forall n :: n in b.data && n != name ==> r.data[n] == b.data[n]
    ensures Evicted(b) ==> Evicted(r)
  {
    if name !in b.data then b
    else if seconds <= 0 then b.(data := b.data - {name})
    else b.(data := b.data[name := b.data[name].(deadline := Some(b.clock + seconds))])
  }

  /**
    `EXPIRE name seconds` as sent: the timeout arrives as text. Text that is
    not an integer is answered with an error and changes nothing.
   */
  function Expire(b: Backend, name: string, seconds: string): (r: Result<Backend, RedisError>)
    ensures ParseInteger(seconds).None? ==> r == Failure(NotAnInteger)
    ensures ParseInteger(seconds).Some? ==> r.Success? && r.value.clock == b.clock
    ensures ParseInteger(seconds).Some? && name in b.data && ParseInteger(seconds).value > 0 ==>
      r.Success? && name in r.value.data
      && r.value.data[name] == b.data[name].(deadline := Some(b.clock + ParseInteger(seconds).value))
    ensures ParseInteger(seconds).Some? && name in b.data && ParseInteger(seconds).value <= 0 ==>
      r.Success? && name !in r.value.data
    ensures name !in b.data && r.Success? ==> r.value == b
    ensures r.Success? ==> forall n :: n != name ==> (n in r.value.data <==> n in b.data)
    ensures r.Success? ==> forall n :: n in b.data && n != name ==> r.value.data[n] == b.data[n]
  {
    match ParseInteger(seconds)
    case None => Failure(NotAnInteger)
    case Some(n) => Success(ExpireSeconds(b, name, n))
  }

  /** `GET name`: the value if the entry is readable, `nil` otherwise. */
  function Get(b: Backend, name: string): (r: Option<string>)
    ensures r.Some? <==> Readable(b, name)
    ensures r.Some? ==> r.value == b.data[name].value
  {
    if name in b.data && Live(b.data[name], b.clock) then Some(b.data[name].value) else None
  }

  /** `DEL name`: removes the entry, if any, and nothing else. */
  function Delete(b: Backend, name: string): (r: Backend)
    ensures r.clock == b.clock
    ensures r.data.Keys == b.data.Keys - {name}
    ensures forall n :: n in r.data ==> r.data[n] == b.data[n]
    ensures Evicted(b) ==> Evicted(r)
  {
    b.(data := b.data - {name})
  }

  /** Lets `seconds` go by; the backend drops every entry whose deadline is now past. */
  function Tick(b: Backend, seconds: nat): (r: Backend)
    ensures r.clock == b.clock + seconds
    ensures Evicted(r)
    ensures forall n :: n in r.data <==> n in b.data && Live(b.data[n], b.clock + seconds)
    ensures forall n :: n in r.data ==> r.data[n] == b.data[n]
  {
    var now := b.clock + seconds;
    Backend(map n | n in b.data && Live(b.data[n], now) :: b.data[n], now)
  }
}

=== FILE: snappass.dfy ===
/**
  The burn-after-read secret lifecycle: checking a submission, storing the
  secret under a fresh key with a time-to-live, and handing it out once.
  HTTP outcomes are modelled as values: a created link, a revealed secret, or
  an abort status.
 */
module Snappass {
  import opened Wrappers
  import opened Digits
  import opened Keys
  import opened Redis

  /** Longest accepted secret, in characters (1 MiB). */
  const MaxPasswordSize := 1048576

  /** Shortest and longest accepted lifetime, in seconds (one second to seven days). */
  const MinTtl := 1
  const MaxTtl := 604800

  /** Most digits `int` converts from text before raising `ValueError` (the interpreter's default limit). */
  const MaxIntDigits := 4300

  /** The submitted form fields, by name. */
  type Form = map<string, string>

  /** The fields `clean_input` hands back on success: the TTL text and the secret, untouched. */
  datatype Cleaned = Cleaned(ttl: string, password: string)

  /**
    Why a submission is refused. Each reason leads to status 400, except
    `TtlTooManyDigits`: there `int` raises, and the uncaught error gives 500.
   */
  datatype Rejection = MissingPassword | PasswordTooLong | MissingTtl | TtlNotNumeric | TtlTooManyDigits | TtlOutOfRange

  /** The status a refused submission ends with. */
  function RejectionStatus(reason: Rejection): (status: int)
    ensures status == 500 <==> reason == TtlTooManyDigits
    ensures status == 400 <==> reason != TtlTooManyDigits
  {
    if reason == TtlTooManyDigits then 500 else 400
  }

  datatype Response = Created(key: string) | Reveal(password: string) | Abort(status: int)

  /**
    The assumed postcondition of `id_`: a uuid4 in lowercase hex is a
    well-formed key, and (with overwhelming probability) names no secret
    already in the store.
   */
  predicate FreshId(b: Backend, id: string) {
    KeyFormat(id) && SafeKey(id) !in b.data
  }

  /** What a submission must satisfy to be stored, stated field by field. */
  predicate AcceptableForm(form: Form) {
    && "password" in form
    && |form["password"]| <= MaxPasswordSize
    && "ttl" in form
    && IsDigits(form["ttl"])
    && |form["ttl"]| <= MaxIntDigits
    && MinTtl <= Value(form["ttl"]) <= MaxTtl
  }

  /** The submission passes every check before the TTL is read, but the TTL is too long for `int`. */
  predicate TtlTooLongToRead(form: Form) {
    && "password" in form
    && |form["password"]| <= MaxPasswordSize
    && "ttl" in form
    && IsDigits(form["ttl"])
    && |form["ttl"]| > MaxIntDigits
  }

  /** The status a submission that is not accepted ends with. */
  function RefusalStatus(form: Form): int {
    if TtlTooLongToRead(form) then 500 else 400
  }

  /** `clean_input`: the checks in the order the application makes them. */
  function CleanInput(form: Form): (r: Result<Cleaned, Rejection>)
    ensures r.Success? <==> AcceptableForm(form)
    ensures r.Success? ==> r.value == Cleaned(form["ttl"], form["password"])
    ensures r == Failure(MissingPassword) <==> "password" !in form
    ensures r == Failure(TtlTooManyDigits) <==> TtlTooLongToRead(form)
    ensures r == Failure(TtlOutOfRange) ==> "ttl" in form && IsDigits(form["ttl"]) && !(MinTtl <= Value(form["ttl"]) <= MaxTtl)
  {
    if "password" !in form then Failure(MissingPassword)
    else if |form["password"]| > MaxPasswordSize then Failure(PasswordTooLong)
    else if "ttl" !in form then Failure(MissingTtl)
    else if !IsDigits(form["ttl"]) then Failure(TtlNotNumeric)
    else if |form["ttl"]| > MaxIntDigits then Failure(TtlTooManyDigits)
    else if Value(form["ttl"]) < MinTtl || Value(form["ttl"]) > MaxTtl then Failure(TtlOutOfRange)
    else Success(Cleaned(form["ttl"], form["password"]))
  }

  /** Every lifetime in range, written in decimal, is accepted with any secret that fits. */
  lemma EveryTtlInRangeAccepted(ttl: nat, password: string)
    requires MinTtl <= ttl <= MaxTtl
    requires |password| <= MaxPasswordSize
    ensures CleanInput(map["password" := password, "ttl" := Show(ttl)]) == Success(Cleaned(Show(ttl), password))
  {
    ValueOfShow(ttl);
    ShowLength(ttl, 6);
  }

  /**
    `set_password`: writes the secret under the key's store name, then sets
    its expiry from the TTL text, and returns the key. When the server
    refuses the TTL the error propagates, but the secret has already been
    written with no expiry.
   */
  function SetPassword(b: Backend, password: string, ttl: string, id: string): (r: (Result<string, RedisError>, Backend))
    requires FreshId(b, id)
    ensures r.0.Success? <==> ParseInteger(ttl).Some?
    ensures r.0.Success? ==> r.0.value == id && KeyFormat(r.0.value)
    ensures r.1.clock == b.clock
    ensures ParseInteger(ttl).None? ==> SafeKey(id) in r.1.data && r.1.data[SafeKey(id)] == Entry(password, None)
    ensures ParseInteger(ttl).Some? && ParseInteger(ttl).value >= 1 ==>
      SafeKey(id) in r.1.data && r.1.data[SafeKey(id)] == Entry(password, Some(b.clock + ParseInteger(ttl).value))
    ensures ParseInteger(ttl).Some? && ParseInteger(ttl).value < 1 ==> r.1 == b
    ensures forall n :: n != SafeKey(id) ==> (n in r.1.data <==> n in b.data)
    ensures forall n :: n in b.data ==> n in r.1.data && r.1.data[n] == b.data[n]
    ensures Evicted(b) ==> Evicted(r.1)
  {
    var name := SafeKey(id);
    var written := Redis.Set(b, name, password);
    match Redis.Expire(written, name, ttl)
    case Success(expired) => (Success(id), expired)
    case Failure(e) => (Failure(e), written)
  }

  /**
    `get_password`: reads the secret, then deletes its entry whether or not
    there was one.
   */
  function GetPassword(b: Backend, key: string): (r: (Option<string>, Backend))
    ensures r.0.Some? <==> Readable(b, SafeKey(key))
    ensures r.0.Some? ==> r.0.value == b.data[SafeKey(key)].value
    ensures r.1.clock == b.clock
    ensures r.1.data.Keys == b.data.Keys - {SafeKey(key)}
    ensures forall n :: n in r.1.data ==> r.1.data[n] == b.data[n]
    ensures Evicted(b) ==> Evicted(r.1)
  {
    var password := Redis.Get(b, SafeKey(key));
    (password, Redis.Delete(b, SafeKey(key)))
  }

  /** A secret stored with a positive lifetime is read back unchanged at any time up to its deadline. */
  lemma RoundTrip(b: Backend, password: string, ttl: string, id: string, wait: nat)
    requires FreshId(b, id)
    requires ParseInteger(ttl).Some? && 1 <= ParseInteger(ttl).value
    requires wait <= ParseInteger(ttl).value
    ensures var (key, stored) := SetPassword(b, password, ttl, id);
            key == Success(id) && GetPassword(Tick(stored, wait), id).0 == Some(password)
  {
  }

  /** After a read the secret is gone: a second read of the same key finds nothing. */
  lemma BurnAfterRead(b: Backend, key: string)
    ensures var (_, after) := GetPassword(b, key);
            SafeKey(key) !in after.data && GetPassword(after, key).0 == None
  {
  }

  /**
    `handle_password` as written: the submission is checked first, and only
    an accepted one is written. The TTL text goes to the server unchanged;
    if the server refuses it, the request fails with status 500.
   */
  function HandlePasswordAsWritten(b: Backend, form: Form, id: string): (r: (Response, Backend))
    requires AcceptableForm(form) ==> FreshId(b, id)
    ensures !AcceptableForm(form) ==> r == (Abort(RefusalStatus(form)), b)
    ensures AcceptableForm(form) && Show(Value(form["ttl"])) == form["ttl"] ==>
      && r.0 == Created(id)
      && SafeKey(id) in r.1.data
      && r.1.data[SafeKey(id)] == Entry(form["password"], Some(b.clock + Value(form["ttl"])))
    ensures AcceptableForm(form) && Show(Value(form["ttl"])) != form["ttl"] ==>
      && r.0 == Abort(500)
      && SafeKey(id) in r.1.data
      && r.1.data[SafeKey(id)] == Entry(form["password"], None)
    ensures AcceptableForm(form) ==> r.1.data.Keys == b.data.Keys + {SafeKey(id)} && r.1.clock == b.clock
    ensures forall n :: n in b.data ==> n in r.1.data && r.1.data[n] == b.data[n]
    ensures Evicted(b) ==> Evicted(r.1)
  {
    match CleanInput(form)
    case Failure(reason) => (Abort(RejectionStatus(reason)), b)
    case Success(cleaned) =>
      ParseIntegerOfDigits(cleaned.ttl);
      var (key, stored) := SetPassword(b, cleaned.password, cleaned.ttl, id);
      if key.Failure? then (Abort(500), stored) else (Created(key.value), stored)
  }

  /**
    A zero-padded TTL passes the submission check, but the server refuses it
    after the secret is written: the request fails and the secret never
    expires, however much time passes.
   */
  lemma ZeroPaddedTtlNeverExpires(b: Backend, id: string, wait: nat)
    requires FreshId(b, id)
    ensures var form := map["password" := "x", "ttl" := "060"];
            var (resp, stored) := HandlePasswordAsWritten(b, form, id);
            AcceptableForm(form) && resp == Abort(500) && SafeKey(id) in Tick(stored, wait).data
  {
    var form := map["password" := "x", "ttl" := "060"];
    assert Value("060") == 60 by {
      assert "060"[..2] == "06";
      assert "06"[..1] == "0";
    }
    assert Show(60) == "60" by {
      assert Show(6) == "6";
    }
  }

  /**
    `handle_password` with the TTL passed to `set_password` as the integer
    `clean_input` checked: the submission is checked first, only an accepted
    one is written, and the secret's deadline is now + TTL.
   */
  function HandlePassword(b: Backend, form: Form, id: string): (r: (Response, Backend))
    requires AcceptableForm(form) ==> FreshId(b, id)
    ensures !AcceptableForm(form) ==> r == (Abort(RefusalStatus(form)), b)
    ensures AcceptableForm(form) ==>
      && r.0 == Created(id)
      && KeyFormat(id)
      && SafeKey(id) in r.1.data
      && r.1.data[SafeKey(id)] == Entry(form["password"], Some(b.clock + Value(form["ttl"])))
      && r.1.data.Keys == b.data.Keys + {SafeKey(id)}
      && r.1.clock == b.clock
    ensures forall n :: n in b.data ==> n in r.1.data && r.1.data[n] == b.data[n]
    ensures Evicted(b) ==> Evicted(r.1)
  {
    match CleanInput(form)
    case Failure(reason) => (Abort(RejectionStatus(reason)), b)
    case Success(cleaned) =>
      ParseIntegerOfShow(Value(cleaned.ttl));
      var (key, stored) := SetPassword(b, cleaned.password, Show(Value(cleaned.ttl)), id);
      if key.Failure? then (Abort(500), stored) else (Created(key.value), stored)
  }

  /** For every TTL written without a leading zero, the two versions of `handle_password` behave alike. */
  lemma AsWrittenAgreesOnCanonicalTtl(b: Backend, form: Form, id: string)
    requires AcceptableForm(form) ==> FreshId(b, id)
    requires AcceptableForm(form) ==> Show(Value(form["ttl"])) == form["ttl"]
    ensures HandlePasswordAsWritten(b, form, id) == HandlePassword(b, form, id)
  {
  }

  /**
    `show_password` with the key check corrected to a full match: a key of
    the wrong shape is refused without touching the store; otherwise the
    secret is read and burned, and a missing or empty secret is reported as
    not found.
   */
  function ShowPassword(b: Backend, key: string): (r: (Response, Backend))
    ensures !KeyFormat(key) ==> r == (Abort(400), b)
    ensures KeyFormat(key) ==> r.1 == GetPassword(b, key).1
    ensures KeyFormat(key) ==>
      (r.0 == Abort(404) <==> !Readable(b, SafeKey(key)) || b.data[SafeKey(key)].value == "")
    ensures r.0.Reveal? <==> KeyFormat(key) && Readable(b, SafeKey(key)) && b.data[SafeKey(key)].value != ""
    ensures r.0.Reveal? ==> r.0.password == b.data[SafeKey(key)].value
    ensures !r.0.Created?
  {
    if !KeyFormat(key) then (Abort(400), b)
    else
      var (password, after) := GetPassword(b, key);
      if password.None? || password.value == "" then (Abort(404), after)
      else (Reveal(password.value), after)
  }

  /** `show_password` with the key check as written, which also lets a final newline through. */
  function ShowPasswordAsWritten(b: Backend, key: string): (r: (Response, Backend))
    ensures !KeyRegexpMatch(key) ==> r == (Abort(400), b)
    ensures KeyRegexpMatch(key) ==> r.1 == GetPassword(b, key).1
    ensures KeyRegexpMatch(key) ==>
      (r.0 == Abort(404) <==> !Readable(b, SafeKey(key)) || b.data[SafeKey(key)].value == "")
    ensures r.0.Reveal? <==> KeyRegexpMatch(key) && Readable(b, SafeKey(key)) && b.data[SafeKey(key)].value != ""
    ensures r.0.Reveal? ==> r.0.password == b.data[SafeKey(key)].value
    ensures !r.0.Created?
  {
    if !KeyRegexpMatch(key) then (Abort(400), b)
    else
      var (password, after) := GetPassword(b, key);
      if password.None? || password.value == "" then (Abort(404), after)
      else (Reveal(password.value), after)
  }

  /** Every store name the application holds is the safe key of a well-formed key. */
  predicate OnlyIssuedNames(b: Backend) {
    forall n :: n in b.data ==> IsIssuedName(n)
  }

  /**
    The discrepancy of the pattern as written: a well-formed key followed by a
    newline is refused with 400 by the corrected check, but the pattern as
    written sends it to the store, which is probed (and a delete issued) before
    the request ends in 404.
   */
  lemma TrailingNewlineProbeReachesStore(b: Backend, key: string)
    requires KeyFormat(key)
    requires OnlyIssuedNames(b)
    ensures ShowPassword(b, key + "\n") == (Abort(400), b)
    ensures ShowPasswordAsWritten(b, key + "\n") == (Abort(404), b)
  {
    var probe := key + "\n";
    KeyRegexpMatchCases(probe);
    assert probe[..KeyLength] == key;
    assert !IsIssuedName(SafeKey(probe));
    assert GetPassword(b, probe).1.data == b.data;
  }

  /** On a well-formed key the two checks agree, so the correction changes nothing else. */
  lemma AsWrittenAgreesOnKeys(b: Backend, key: string)
    requires KeyFormat(key) || !KeyRegexpMatch(key)
    ensures ShowPasswordAsWritten(b, key) == ShowPassword(b, key)
  {
  }

  /** Every link the application issues passes the retrieval key check. */
  lemma IssuedKeyPassesCheck(b: Backend, form: Form, id: string, later: Backend)
    requires AcceptableForm(form) ==> FreshId(b, id)
    ensures var (resp, _) := HandlePasswordAsWritten(b, form, id);
            resp.Created? ==> ShowPasswordAsWritten(later, resp.key).0 != Abort(400)
  {
  }

  /**
    The whole lifecycle for one secret: submitted, shown once within its
    lifetime, and not found on a second visit.
   */
  lemma SubmitThenShowTwice(b: Backend, form: Form, id: string, wait: nat)
    requires AcceptableForm(form) && FreshId(b, id)
    requires Show(Value(form["ttl"])) == form["ttl"]
    requires form["password"] != ""
    requires wait <= Value(form["ttl"])
    ensures var (resp, stored) := HandlePasswordAsWritten(b, form, id);
            var (first, burned) := ShowPasswordAsWritten(Tick(stored, wait), id);
            resp == Created(id) && first == Reveal(form["password"])
            && ShowPasswordAsWritten(burned, id).0 == Abort(404)
  {
  }

  /**
    An empty secret passes the submission check and is stored, yet its link
    can only ever answer 404 (and the first visit still burns it).
   */
  lemma EmptySecretNeverShown(b: Backend, form: Form, id: string, wait: nat)
    requires AcceptableForm(form) && FreshId(b, id)
    requires form["password"] == ""
    ensures var (resp, stored) := HandlePasswordAsWritten(b, form, id);
            (Show(Value(form["ttl"])) == form["ttl"] ==> resp == Created(id)) &&
            var (first, burned) := ShowPasswordAsWritten(Tick(stored, wait), id);
            first == Abort(404) && SafeKey(id) !in burned.data
  {
  }

  /** The example lifecycle: a 60-second secret shown once, then not found. */
  lemma CorrectHorseExample(b: Backend, id: string)
    requires FreshId(b, id)
    ensures var form := map["password" := "correct horse battery staple", "ttl" := "60"];
            var (resp, stored) := HandlePasswordAsWritten(b, form, id);
            var (first, burned) := ShowPasswordAsWritten(Tick(stored, 60), id);
            resp == Created(id) && first == Reveal("correct horse battery staple")
            && ShowPasswordAsWritten(burned, id).0 == Abort(404)
  {
    var form := map["password" := "correct horse battery staple", "ttl" := "60"];
    assert Value("60") == 60 by {
      assert "60"[..1] == "6";
    }
    assert Show(60) == "60" by {
      assert Show(6) == "6";
    }
    SubmitThenShowTwice(b, form, id, 60);
  }
}

=== FILE: wrappers.dfy ===
/** Failure-carrying datatypes shared by the other modules. */
module Wrappers {

  /** A value that may be missing, as Redis `GET` answers `nil` for an absent key. */
  datatype Option<+T> = None | Some(value: T)

  /** Either a value or the reason it could not be produced. */
  datatype Result<+R, +E> = Success(value: R) | Failure(error: E)
}
